=== FILE: README.md ===
# Synchronous OCR upload: a Dafny model

This project models the core of a small Django application. A user drops
images on a page. The browser posts them in one request. The server runs an
OCR pipeline on each image, one after another, and tries to record each image
in a `ProcessedImage` row; an image whose row cannot be created is still
reported, as a failure. It answers with one JSON result per image. The page
then renders those results, with Copy and Download buttons for the extracted
text.

Three parts of the code are modelled:

- The browser script `static/js/upload.js`:
  - which files are sent;
  - how the reply settles the batch (network error, HTTP error, non-JSON, JSON);
  - what each result item shows;
  - the name the Download button gives its file;
  - the page state `handleFiles` leaves behind (spinner, results area,
    container, file input, alerts, requests made).
- The view `ProcessImagesView.post` in `core/views.py`. It is modelled per
  uploaded file: the rows saved, in order, and the result entry reported. The
  OCR pipeline, the file-system check and the database are given as a
  per-file outcome (`Views.FileOutcome`). That outcome carries the primary
  key the database assigns, the `uuid4()` value, the `timezone.now()`
  readings, and how far processing got.
- The model in `core/models.py`:
  - `get_upload_path`, with Python's `str.split` and `os.path.join`;
  - the `StatusChoices` values;
  - the `save` override that fills in `original_filename`, as a class
    `Models.ProcessedImage` whose `Save` updates the instance in place.

The module `RoundTrip` puts the two sides together:

- the client's form parts reach the view as one upload per image;
- the view's reply is what the widget settles on;
- a server entry is rendered under the uploaded name, and in the colour that
  matches its outcome.

Modules, one per file:

- `Wrappers`: `Option`.
- `Text`: string predicates, JavaScript truthiness of a string field, decimal
  text.
- `Protocol`: the JSON result entry both sides share.
- `Models`.
- `Views`.
- `UploadRequest`: file filtering and reply settlement.
- `ResultView`: `renderResultItem`.
- `DownloadName`: the safe download filename.
- `UploadWidget`: the page state and `handleFiles`.
- `RoundTrip`.

`My File!.png` downloads as `my_file_.png.txt`. The code only replaces
characters outside `[a-z0-9.]` and then appends `.txt`, so it keeps the
extension. `DownloadName.ExtensionKept` proves that the extension is never
stripped.

## Model

| member | source | states |
|---|---|---|
| Models.ParseStatus | core/models.py:12-15 | only the three stored values `PENDING`, `COMPLETED`, `FAILED` name a status, and each names the choice whose value it is |
| Models.StatusRoundTrip | core/models.py:12-15 | every status's stored value reads back as that status |
| Models.Split | core/models.py:7 | `str.split` with one separator always yields at least one part |
| Models.SplitPartsSepFree | core/models.py:7 | no part of a split holds the separator |
| Models.SplitJoinRoundTrip | core/models.py:7 | joining the parts of a split with the separator gives back the text |
| Models.AfterLast | core/models.py:38 | the result is a suffix free of the separator, preceded by the separator when shorter than the text, and the whole text when the separator is absent |
| Models.AfterLastPastSeparator | core/models.py:38 | whatever precedes the last separator does not affect the text after it |
| Models.LastSegmentIsAfterLast | core/models.py:7 | the last part of a split is the text after the last separator |
| Models.Extension | core/models.py:7 | the kept extension holds no dot, and is the whole name when the name has no dot |
| Models.ExtensionIsAfterLastDot | core/models.py:7 | the kept extension is the text after the last dot, never holds a dot, and is the whole name when there is no dot |
| Models.PathJoinShape | core/models.py:9 | `os.path.join(a, b)` ends with `b`; it is `b` alone when `b` starts with `/`; otherwise it is `a + b` when `a` is empty or ends in `/`, and `a + "/" + b` when not |
| Models.Basename | core/models.py:38 | `os.path.basename` gives a suffix of the path free of `/`, preceded by `/` when shorter than the path |
| Models.UploadPath | core/models.py:6-9 | the upload path ends with `<uuid>.<ext>` |
| Models.UploadPathKeepsExtension | core/models.py:6-9 | the upload path ends with a dot and the uploaded name's extension |
| Models.StoredImage | core/models.py:39 | saving leaves a committed or empty image alone; an uncommitted one is committed under a name that ends with a dot and its extension |
| Models.UploadPathShape | core/models.py:6-9 | the upload path is `uploads/<uuid>.<ext>` and always lies under `uploads/` |
| Models.UploadBasename | core/models.py:6-9 | the stored file's basename is `<uuid>.<ext>` |
| Models.SavedFilename | core/models.py:35-38 | on a first save with an image and a blank filename, the filename becomes the longest suffix of the image name that holds no `/` (its basename: the whole name when it has none, else what follows the last `/`); otherwise the filename is unchanged |
| Models.ProcessedImage.constructor | core/models.py:17-30 | a new instance is unsaved, PENDING by default, with no texts and no processing time |
| Models.ProcessedImage.Save | core/models.py:35-39 | save fills in the filename as above, keeps an existing primary key or takes the assigned one, stores the image under its upload path, and leaves every other field alone |
| Models.ResaveKeepsNameAndImage | core/models.py:35-39 | a second save changes neither the filename nor the stored image |
| Views.GetList | core/views.py:27 | `getlist` returns at most as many files as the request has parts |
| Views.GetListAppend | core/views.py:27 | `getlist` keeps request order |
| Views.GetListAllUnder | core/views.py:27 | when every part is under the field, every file is returned, in order |
| Views.GetListNoneUnder | core/views.py:27 | when no part is under the field, nothing is returned |
| Views.GetListNamesNonEmpty | core/views.py:27 | returned files keep their non-empty names |
| Views.Entries | core/views.py:30-99 | one result entry per file |
| Views.AllWrites | core/views.py:30-99 | one group of saved rows per file |
| Views.EntriesSnoc | core/views.py:30-99 | processing one more file appends its entry |
| Views.AllWritesSnoc | core/views.py:30-99 | processing one more file appends its rows |
| Views.EntriesAt | core/views.py:30-99 | entry `i` is the one for file `i` |
| Views.AllWritesAt | core/views.py:30-99 | row group `i` is the one for file `i` |
| Views.Respond | core/views.py:24-101 | the reply is a bad request exactly when the request has no files, and otherwise has one result per image |
| Views.CreatedRow | core/views.py:34-38 | the created row has its primary key, PENDING, the creation time, no processing time and no texts; its filename is the upload's name, and a named upload's image is committed under a name that keeps the extension |
| Views.Writes | core/views.py:34-81 | no row is saved when creation raised; otherwise exactly two, the created row and then a finished one with the same key, image, filename and creation time, no longer PENDING, with the processing time |
| Views.EntryFor | core/views.py:61-99 | every entry names its upload; its id is the primary key when the record was created and null otherwise; only a created record has an image URL |
| Views.CreateRecord | core/views.py:34-38 | the created record is saved PENDING, with the upload's name as its filename and its image under the upload path |
| Views.MarkCompleted | core/views.py:54-59 | the record gets the three texts, COMPLETED and the processing time, and nothing else changes |
| Views.MarkFailed | core/views.py:77-81 | the record gets FAILED, the error message as its final text and the processing time, and nothing else changes |
| Views.ProcessFile | core/views.py:31-99 | the try/except body for one file yields the entry and the saved rows the specification functions give |
| Views.Post | core/views.py:23-101 | the view's response and saved rows are those the specification functions give |
| Views.CompletedEntry | core/views.py:61-68 | a finished file is reported COMPLETED with its id, URL, name and merged text, and no error |
| Views.FailedEntry | core/views.py:82-89 | a created file that failed is reported FAILED with its id, URL and name, no text, and `Processing failed: ` plus the message |
| Views.UnrecordedEntry | core/views.py:92-99 | a file whose record could not be created is reported FAILED with no id and no URL |
| Views.EntryStatusFixesFields | core/views.py:57-99 | an entry's status is COMPLETED or FAILED. It is COMPLETED exactly when the pipeline finished, exactly when it has a final text, and exactly when it has no error. An error starts with `Processing failed: `. The id is null exactly when creation failed, and otherwise a positive key. The filename is the upload's name |
| Views.RecordLifecycle | core/views.py:34-81 | a created record is saved twice: PENDING without a time, then COMPLETED or FAILED with the time. Its final text is the reported text or the reported error, and the stored status matches the reported one |
| Views.OneEntryPerImage | core/views.py:27-101 | a non-empty request gets one entry per image, in order, each naming its image |
| Views.OtherFieldsGiveNoResults | core/views.py:24-30 | files sent only under other fields give an empty result list, not a bad request |
| Text.IncludesIffOccurs | static/js/upload.js:66 | `includes` holds exactly when the text occurs at some position |
| Text.Decimal | static/js/upload.js:99 | the decimal text of an id is non-empty, all digits, and has no leading zero |
| UploadRequest.ImageParts | static/js/upload.js:30-38 | no more parts are sent than files were selected |
| UploadRequest.ImagePartsAppend | static/js/upload.js:30-38 | the parts keep selection order |
| UploadRequest.ImagePartsExactly | static/js/upload.js:30-38 | a part is sent for a file exactly when the file is a selected image, always under `images` with the file's own name |
| UploadRequest.ImagePartsEmpty | static/js/upload.js:30-38 | nothing is sent exactly when no selected file is an image |
| UploadRequest.ImagePartsAllImages | static/js/upload.js:30-38 | when every file is an image, every file is sent, in order |
| UploadRequest.CollectImages | static/js/upload.js:27-38 | the loop builds exactly the image parts, and `validFiles` holds exactly when some file is an image |
| UploadRequest.ErrorText | static/js/upload.js:54-61 | the failure text is never empty. A JSON body's truthy `detail` wins, then its `error`. Otherwise, and whenever the body is not JSON, the text is `Upload failed: <statusText>` |
| UploadRequest.AcceptsJson | static/js/upload.js:65-68 | a reply is read as JSON exactly when it has a content type in which `application/json` occurs |
| UploadRequest.Settle | static/js/upload.js:46-71 | results are delivered exactly for an OK reply with a JSON content type and a body that parses; a network error, an HTTP error and a non-JSON reply each reject with their own message, and missing results count as none |
| ResultView.Render | static/js/upload.js:96-143 | the item shows the filename or `Unknown File`. It is green exactly for COMPLETED, and shows the text and the buttons exactly then, or else the error. The fallbacks are `(No text extracted)` and `An unknown error occurred.`. The preview is shown exactly when the URL is truthy; its `alt` is the filename or `Image <id>`, prefixed by `Failed: ` for a failed entry. The download name is the safe form of the filename or of `result-<id>.txt`. The id is used exactly when it is truthy |
| ResultView.DownloadSource | static/js/upload.js:120 | the name given to the Download button is never empty: the filename when truthy, otherwise exactly `result-<id>.txt`, with the id's decimal text (or `null`) |
| ResultView.TextOrErrorShown | static/js/upload.js:115-143 | exactly one of the text and the error is shown, and the badge agrees |
| DownloadName.LowerAscii | static/js/upload.js:167 | lower-casing keeps the length |
| DownloadName.LowerAsciiAt | static/js/upload.js:167 | lower-casing works character by character |
| DownloadName.LowerAsciiAppend | static/js/upload.js:167 | lower-casing distributes over concatenation |
| DownloadName.ReplacedChars | static/js/upload.js:167 | the replacement yields only `[a-zA-Z0-9.]` and `_`, all ASCII |
| DownloadName.ReplacedAppend | static/js/upload.js:167 | the replacement distributes over concatenation |
| DownloadName.SanitizedAppend | static/js/upload.js:167 | sanitising distributes over concatenation |
| DownloadName.SanitizedLength | static/js/upload.js:167 | the sanitised name has one character per UTF-16 code unit of the name |
| DownloadName.SanitizedChars | static/js/upload.js:167 | the sanitised name holds only `a`-`z`, `0`-`9`, `.` and `_` |
| DownloadName.SanitizedAt | static/js/upload.js:167 | for Basic Multilingual Plane input, each character is kept lower-cased or becomes `_` |
| DownloadName.SanitizedIdempotent | static/js/upload.js:167 | sanitising twice is sanitising once |
| DownloadName.SanitizedFixed | static/js/upload.js:167 | every name over the sanitised alphabet `[a-z0-9._]` is left alone |
| DownloadName.SafeFilename | static/js/upload.js:167 | the download name ends in `.txt` after a non-empty stem |
| DownloadName.SafeFilenameShape | static/js/upload.js:167 | the download name ends in `.txt` and is otherwise safe characters. An empty name gives `download.txt`. Any other name gives its sanitised form plus `.txt`, four characters longer than its UTF-16 length |
| DownloadName.ExtensionKept | static/js/upload.js:167 | an existing extension over `[a-z0-9._]` is kept and `.txt` appended after it |
| DownloadName.AstralBecomesTwoUnderscores | static/js/upload.js:167 | any character outside the Basic Multilingual Plane becomes two underscores, wherever it stands |
| UploadWidget.RenderAll | static/js/upload.js:76-78 | one item per result |
| UploadWidget.RenderAllAt | static/js/upload.js:76-78 | item `i` renders result `i` |
| UploadWidget.RenderAllSnoc | static/js/upload.js:76-78 | rendering one more result appends its item |
| UploadWidget.ContainerFor | static/js/upload.js:74-88 | the container is never left empty once a batch settles, and holds one node per result when results came back |
| UploadWidget.ContainerShape | static/js/upload.js:74-88 | a failed batch shows one alert `Error: <message>`. An empty result list shows only the placeholder. Otherwise there is one item per result, in server order |
| UploadWidget.Widget.RenderResultItem | static/js/upload.js:96-146 | the rendered item is appended to the container |
| UploadWidget.Widget.RenderResults | static/js/upload.js:76-78 | the items for all results are appended, in order |
| UploadWidget.Widget.HandleFiles | static/js/upload.js:23-93 | with no image: one alert, no request, the results area hidden, the container empty and the file input untouched. Otherwise: exactly the images posted once, the results area shown, the container as the reply settles, and the file input reset. In both cases the spinner ends hidden, after being shown once |
| RoundTrip.ToServer | static/js/upload.js:32 | each form part reaches the server under its field, as a file named by its filename (for names the multipart parser leaves alone) |
| RoundTrip.Transport | core/views.py:24-101 | the browser sees an OK reply with a parseable JSON body exactly for the view's JSON response, which carries the view's results unchanged; the 400 comes with the status text `Bad Request` |
| RoundTrip.FieldNamesAgree | core/views.py:27 | the client sends under the field the view reads |
| RoundTrip.BatchGetsOneEntryPerImage | core/views.py:24-30 | a batch with an image is never a bad request, and gets one entry per image, in selection order, each naming its image (Django's limit of 100 file parts per request is not modelled) |
| RoundTrip.UploadPathNonEmpty | core/models.py:6-9 | a stored image always has a non-empty name |
| RoundTrip.ServerEntryRendering | static/js/upload.js:109-143 | a server entry is shown under the uploaded name. It is green exactly when processing finished. A failure's message starts with `Processing failed: ` and is never the client's fallback. The preview is shown, and the server's id used, exactly when the record was created |
| RoundTrip.JsonReplyDelivered | static/js/upload.js:64-71 | the view's JSON reply is delivered to the widget unchanged |
| RoundTrip.BadRequestShown | static/js/upload.js:54-61 | an empty request is shown as `Upload failed: Bad Request`, since the 400 body is not JSON |

## Left out

- DOM wiring is not modelled: the drop zone's click, dragover, dragleave and drop handlers, and the file input's change handler (`static/js/upload.js:1-20`). `HandleFiles` is modelled as called with the selected files.
- The clipboard write and the two-second `Copied!` label, the `Blob`, the object URL and the temporary link are left out. `ResultView.Actions` records only what the buttons act on: the text and the file name and content.
- `Date.now()` is left out. A falsy id gives `ResultView.Timestamped` in place of `error-<time>`.
- `fetch`, `response.json()` and the JSON text itself are not modelled. The reply is a parameter (`UploadRequest.Reply`), already parsed into the fields the script reads. JSON field values other than strings, null or absent (numbers, objects) are not modelled. Neither is a JSON body that is not an object (`null`, for one, makes `data.results` throw).
- Two batches in flight at once are not modelled: `handleFiles` is modelled as running to completion.
- `console` logging on both sides, and `print` in the view, are left out.
- The OCR pipeline (`preprocess_image`, `perform_ocr`, `enhance_with_gemini`, `merge_results`) and `os.path.exists` are left out. The services module is not part of this model; each file's outcome is an input.
- Django's storage layer is assumed, not modelled: the stored name is taken to be the upload path exactly (no `get_valid_name` or `get_available_name` renaming), and `image.url` to be the media URL followed by the name (no URL quoting).
- A save that raises after the record exists is not modelled. Only failures of creation, of the file check and of the pipeline are.
- Uploaded file names are required to be non-empty, because Django's multipart parser drops file parts with empty names.
- Lone UTF-16 surrogates in file names are not modelled, because a Dafny `char` is a Unicode scalar value.
- `UploadView` (a template view), `__str__`, `core/admin.py` and `core/urls.py` are not modelled. They hold no logic the core depends on.
- ResultView.Render: an entry with no `id` key is treated like `"id": null`, so it renders `result-null.txt` and `Image null` where the script's template literals give `result-undefined.txt` and `Image undefined`. The view always sends the key (`core/views.py:62`, `:83`, `:93`).
- RoundTrip.ToServer: Django's renaming of uploaded file names is not modelled: HTML unescaping, keeping only what follows the last `/` or `\`, removing non-printable characters, truncation to 255 characters. Neither is the browser's escaping of `"`, CR and LF in the part's filename as `%22`, `%0D` and `%0A`, which Django does not undo. Django's `DATA_UPLOAD_MAX_NUMBER_FILES` limit (100 file parts by default) is not modelled either: past it Django raises `TooManyFilesSent` and answers 400, which the widget shows as `Error: Upload failed: Bad Request`. The round-trip lemmas that say an entry names its image hold for names that renaming leaves alone.
- RoundTrip.Transport: the 400's status text is the HTTP/1.1 reason phrase `Bad Request`. Over HTTP/2 `statusText` is empty and the widget shows `Upload failed: ` alone.
- Views.FileOutcome: primary keys are positive (`Models.Pk`), as the `AutoField` assigns them. So the view's `image_instance.pk` test (`core/views.py:77`) always holds once the record exists.
- Text.Decimal: the contract states the shape of the digits, not their numeric value.
- DownloadName.LowerAscii: modelled as lower-casing ASCII letters only. That is all `toLowerCase` meets here, because the replacement before it leaves only ASCII (`DownloadName.ReplacedChars`).

=== FILE: download_name.dfy ===
/**
 * The name the Download button gives the text file:
 * `(filename.replace(/[^a-z0-9.]/gi, '_').toLowerCase() || 'download') + '.txt'`.
 *
 * JavaScript strings are sequences of UTF-16 code units and the pattern has
 * no `u` flag, so it is matched unit by unit: a character outside the Basic
 * Multilingual Plane, stored as two units, becomes two underscores. Here a
 * `char` is a Unicode scalar value and that doubling is written out.
 */
module DownloadName {
  import opened Text

  /** The characters `[a-z0-9.]` matches under the `i` flag: ASCII letters of either case, digits, the dot. */
  predicate Kept(c: char) {
    'a' <= c <= 'z' || 'A' <= c <= 'Z' || '0' <= c <= '9' || c == '.'
  }

  /** The characters a sanitised name is made of. */
  predicate SafeChar(c: char) {
    'a' <= c <= 'z' || '0' <= c <= '9' || c == '.' || c == '_'
  }

  predicate IsAscii(s: string) {
    forall i :: 0 <= i < |s| ==> s[i] as int < 128
  }

  /** How many UTF-16 code units JavaScript stores for `c`. */
  function CodeUnits(c: char): nat {
    if c as int < 0x1_0000 then 1 else 2
  }

  /** `s.length` in JavaScript. */
  function Utf16Length(s: string): nat
    decreases |s|
  {
    if s == [] then 0 else CodeUnits(s[0]) + Utf16Length(s[1..])
  }

  /** What the replacement puts in place of one character. */
  function Replacement(c: char): string {
    if Kept(c) then [c] else if CodeUnits(c) == 1 then "_" else "__"
  }

  /** `s.replace(/[^a-z0-9.]/gi, '_')`. */
  function Replaced(s: string): string
    decreases |s|
  {
    if s == [] then [] else Replacement(s[0]) + Replaced(s[1..])
  }

  /** Lower-cases an ASCII letter; leaves every other character alone. */
  function Lower(c: char): char {
    if 'A' <= c <= 'Z' then (c as int + 32) as char else c
  }

  /**
   * `t.toLowerCase()` on an ASCII text, where it only maps `A`-`Z` to
   * `a`-`z`; `Replaced` always yields such a text (`ReplacedChars`).
   */
  function LowerAscii(t: string): (r: string)
    ensures |r| == |t|
    decreases |t|
  {
    if t == [] then [] else [Lower(t[0])] + LowerAscii(t[1..])
  }

  /** Lower-casing works character by character. */
  lemma {:induction false} LowerAsciiAt(t: string)
    ensures forall i :: 0 <= i < |t| ==> LowerAscii(t)[i] == Lower(t[i])
    decreases |t|
  {
    if t != [] {
      LowerAsciiAt(t[1..]);
      forall i | 0 < i < |t| ensures LowerAscii(t)[i] == Lower(t[i]) {
        assert LowerAscii(t)[i] == LowerAscii(t[1..])[i - 1];
        assert t[i] == t[1..][i - 1];
      }
    }
  }

  /** The replacement only yields the kept characters and `_`. */
  lemma {:induction false} ReplacedChars(s: string)
    ensures forall i :: 0 <= i < |Replaced(s)| ==> Kept(Replaced(s)[i]) || Replaced(s)[i] == '_'
    ensures IsAscii(Replaced(s))
    decreases |s|
  {
    if s != [] {
      ReplacedChars(s[1..]);
      var r := Replaced(s);
      var head := Replacement(s[0]);
      assert r == head + Replaced(s[1..]);
      forall i | 0 <= i < |r| ensures (Kept(r[i]) || r[i] == '_') && r[i] as int < 128 {
        if i >= |head| {
          assert r[i] == Replaced(s[1..])[i - |head|];
        }
      }
    }
  }

  /** The name before the fallback and the extension: replaced, then lower-cased. */
  function Sanitized(s: string): string {
    LowerAscii(Replaced(s))
  }

  /** The download name for `filename`. */
  function SafeFilename(filename: string): (name: string)
    ensures |name| >= 5 && name[|name| - 4..] == ".txt"
    ensures name[..|name| - 4] != ""
  {
    var base := Sanitized(filename);
    (if base == "" then "download" else base) + ".txt"
  }

  // ---------------------------------------------------------------------

  lemma {:induction false} ReplacedAppend(a: string, b: string)
    ensures Replaced(a + b) == Replaced(a) + Replaced(b)
    decreases |a|
  {
    if a == [] {
      assert a + b == b;
    } else {
      assert (a + b)[0] == a[0];
      assert (a + b)[1..] == a[1..] + b;
      ReplacedAppend(a[1..], b);
    }
  }

  lemma {:induction false} LowerAsciiAppend(a: string, b: string)
    ensures LowerAscii(a + b) == LowerAscii(a) + LowerAscii(b)
    decreases |a|
  {
    if a == [] {
      assert a + b == b;
    } else {
      assert (a + b)[0] == a[0];
      assert (a + b)[1..] == a[1..] + b;
      LowerAsciiAppend(a[1..], b);
    }
  }

  /** Sanitising works character by character: it distributes over concatenation. */
  lemma SanitizedAppend(a: string, b: string)
    ensures Sanitized(a + b) == Sanitized(a) + Sanitized(b)
  {
    ReplacedAppend(a, b);
    ReplacedChars(a);
    ReplacedChars(b);
    LowerAsciiAppend(Replaced(a), Replaced(b));
  }

  /** The sanitised name has exactly as many characters as the name has UTF-16 code units. */
  lemma {:induction false} SanitizedLength(s: string)
    ensures |Sanitized(s)| == Utf16Length(s)
    decreases |s|
  {
    if s != [] {
      SanitizedLength(s[1..]);
      assert s == [s[0]] + s[1..];
      ReplacedAppend([s[0]], s[1..]);
      assert Replaced([s[0]]) == Replacement(s[0]);
      ReplacedChars([s[0]]);
      ReplacedChars(s[1..]);
      LowerAsciiAppend(Replaced([s[0]]), Replaced(s[1..]));
    }
  }

  /** The sanitised name holds only `a`-`z`, `0`-`9`, `.` and `_`. */
  lemma SanitizedChars(s: string)
    ensures forall i :: 0 <= i < |Sanitized(s)| ==> SafeChar(Sanitized(s)[i])
  {
    ReplacedChars(s);
    LowerAsciiAt(Replaced(s));
  }

  /** For a name made of Basic Multilingual Plane characters, each character is kept lower-cased or becomes `_`. */
  lemma {:induction false} SanitizedAt(s: string)
    requires forall i :: 0 <= i < |s| ==> CodeUnits(s[i]) == 1
    ensures |Sanitized(s)| == |s|
    ensures forall i :: 0 <= i < |s| ==> Sanitized(s)[i] == if Kept(s[i]) then Lower(s[i]) else '_'
    decreases |s|
  {
    if s != [] {
      SanitizedAt(s[1..]);
      assert s == [s[0]] + s[1..];
      SanitizedAppend([s[0]], s[1..]);
      assert Replaced([s[0]]) == Replacement(s[0]);
      assert Sanitized([s[0]]) == [if Kept(s[0]) then Lower(s[0]) else '_'];
      forall i | 0 <= i < |s| ensures Sanitized(s)[i] == if Kept(s[i]) then Lower(s[i]) else '_' {
        if i > 0 {
          assert s[i] == s[1..][i - 1];
        }
      }
    }
  }

  /** Sanitising a sanitised name changes nothing. */
  lemma {:induction false} SanitizedIdempotent(s: string)
    ensures Sanitized(Sanitized(s)) == Sanitized(s)
    decreases |s|
  {
    if s != [] {
      var t := Sanitized(s);
      SanitizedChars(s);
      SanitizedLength(t);
      // every character of t is safe, so it is kept and already lower case
      SanitizedAt(t);
      assert Sanitized(t) == t;
    }
  }

  /**
   * The download name ends in `.txt` and otherwise holds only `a`-`z`,
   * `0`-`9`, `.` and `_`. An empty name gives `download.txt`; any other
   * name gives its sanitised form plus `.txt`, one character longer per
   * UTF-16 code unit, and four longer in all.
   */
  lemma SafeFilenameShape(filename: string)
    ensures var name := SafeFilename(filename);
            && EndsWith(name, ".txt")
            && (forall i :: 0 <= i < |name| - 4 ==> SafeChar(name[i]))
            && (filename == "" ==> name == "download.txt")
            && (filename != "" ==> name == Sanitized(filename) + ".txt" && |name| == Utf16Length(filename) + 4)
  {
    SanitizedLength(filename);
    SanitizedChars(filename);
    var name := SafeFilename(filename);
    var base := if Sanitized(filename) == "" then "download" else Sanitized(filename);
    assert name == base + ".txt";
    assert name[..|name| - 4] == base;
    assert filename != "" ==> Utf16Length(filename) > 0;
  }

  /** A text made only of `a`-`z`, `0`-`9`, `.` and `_` sanitises to itself. */
  lemma SanitizedFixed(t: string)
    requires forall i :: 0 <= i < |t| ==> SafeChar(t[i])
    ensures Sanitized(t) == t
  {
    SanitizedAt(t);
  }

  /**
   * The extension is never stripped: a name ending in `.<ext>`, with the
   * extension in lower-case letters, digits, dots and underscores, downloads as the sanitised
   * stem, then `.<ext>`, then `.txt` (so `a.txt` gives `a.txt.txt`).
   */
  lemma ExtensionKept(stem: string, ext: string)
    requires forall i :: 0 <= i < |ext| ==> SafeChar(ext[i])
    ensures SafeFilename(stem + "." + ext) == Sanitized(stem) + "." + ext + ".txt"
  {
    var tail := "." + ext;
    forall i | 0 <= i < |tail| ensures SafeChar(tail[i]) {
      if i > 0 {
        assert tail[i] == ext[i - 1];
      }
    }
    SanitizedFixed(tail);
    assert stem + "." + ext == stem + tail;
    SanitizedAppend(stem, tail);
    var base := Sanitized(stem) + tail;
    assert base != "";
    assert base + ".txt" == Sanitized(stem) + "." + ext + ".txt";
  }

  /** A character outside the Basic Multilingual Plane becomes two underscores, and sanitising counts both. */
  lemma AstralBecomesTwoUnderscores(c: char, rest: string)
    requires CodeUnits(c) == 2
    ensures Sanitized([c]) == "__"
    ensures Sanitized([c] + rest) == "__" + Sanitized(rest)
  {
    assert Replaced([c]) == Replacement(c) + Replaced([]);
    assert Replaced([c]) == "__";
    LowerAsciiAt("__");
    assert LowerAscii("__") == "__";
    SanitizedAppend([c], rest);
  }
}

=== FILE: models.dfy ===
/**
 * The `ProcessedImage` record: its status choices, where its image is
 * stored, and how `save` fills in the original filename.
 */
module Models {
  import opened Wrappers
  import opened Text

  /** `ProcessedImage.StatusChoices`: the three values the status column takes. */
  datatype Status = Pending | Completed | Failed {

    /** The stored and serialised text of the choice. */
    function Value(): string {
      match this
      case Pending => "PENDING"
      case Completed => "COMPLETED"
      case Failed => "FAILED"
    }
  }

  /** Reads a status back from its stored text. */
  function ParseStatus(s: string): (r: Option<Status>)
    ensures r.Some? ==> r.value.Value() == s
    ensures r.None? <==> s != "PENDING" && s != "COMPLETED" && s != "FAILED"
  {
    if s == "PENDING" then Some(Pending)
    else if s == "COMPLETED" then Some(Completed)
    else if s == "FAILED" then Some(Failed)
    else None
  }

  /** Every status survives being written out and read back, so the three texts are distinct. */
  lemma StatusRoundTrip(st: Status)
    ensures ParseStatus(st.Value()) == Some(st)
  {
  }

  // ---------------------------------------------------------------------
  // Path manipulation used by `get_upload_path` and `save`.

  /** Python `s.split(sep)` for a one-character separator. */
  function Split(s: string, sep: char): (parts: seq<string>)
    ensures |parts| >= 1
    decreases |s|
  {
    if s == [] then [""]
    else
      var init := Split(s[..|s| - 1], sep);
      var c := s[|s| - 1];
      if c == sep then init + [""]
      else init[..|init| - 1] + [init[|init| - 1] + [c]]
  }

  /** No part holds the separator. */
  lemma {:induction false} SplitPartsSepFree(s: string, sep: char)
    ensures forall i :: 0 <= i < |Split(s, sep)| ==> sep !in Split(s, sep)[i]
    decreases |s|
  {
    if s != [] {
      var front, c := s[..|s| - 1], s[|s| - 1];
      var init := Split(front, sep);
      var n := |init|;
      SplitPartsSepFree(front, sep);
      if c != sep {
        assert Split(s, sep) == init[..n - 1] + [init[n - 1] + [c]];
        assert sep !in init[n - 1] + [c];
      }
    }
  }

  /** Python `sep.join(parts)`. */
  function JoinWith(parts: seq<string>, sep: char): string
    decreases |parts|
  {
    if parts == [] then ""
    else if |parts| == 1 then parts[0]
    else JoinWith(parts[..|parts| - 1], sep) + [sep] + parts[|parts| - 1]
  }

  /** Joining after appending one more part puts a separator before it. */
  lemma JoinWithSnoc(init: seq<string>, last: string, sep: char)
    requires init != []
    ensures JoinWith(init + [last], sep) == JoinWith(init, sep) + [sep] + last
  {
    assert (init + [last])[..|init|] == init;
  }

  /** Splitting and joining again gives back the original text. */
  lemma {:induction false} SplitJoinRoundTrip(s: string, sep: char)
    ensures JoinWith(Split(s, sep), sep) == s
    decreases |s|
  {
    if s != [] {
      var front := s[..|s| - 1];
      SplitJoinRoundTrip(front, sep);
      if s[|s| - 1] == sep {
        SplitJoinAtSeparator(s, sep);
      } else {
        SplitJoinAtOther(s, sep);
      }
    }
  }

  /** The round-trip step for a text ending in the separator. */
  lemma SplitJoinAtSeparator(s: string, sep: char)
    requires s != [] && s[|s| - 1] == sep
    requires JoinWith(Split(s[..|s| - 1], sep), sep) == s[..|s| - 1]
    ensures JoinWith(Split(s, sep), sep) == s
  {
    var init := Split(s[..|s| - 1], sep);
    assert Split(s, sep) == init + [""];
    JoinWithSnoc(init, "", sep);
    assert s == s[..|s| - 1] + [sep];
  }

  /** The round-trip step for a text ending in another character. */
  lemma SplitJoinAtOther(s: string, sep: char)
    requires s != [] && s[|s| - 1] != sep
    requires JoinWith(Split(s[..|s| - 1], sep), sep) == s[..|s| - 1]
    ensures JoinWith(Split(s, sep), sep) == s
  {
    var front, c := s[..|s| - 1], s[|s| - 1];
    var init := Split(front, sep);
    var n := |init|;
    var last := init[n - 1] + [c];
    assert Split(s, sep) == init[..n - 1] + [last];
    assert s == front + [c];
    if n == 1 {
      assert JoinWith([last], sep) == last;
    } else {
      var head := init[..n - 1];
      assert init == head + [init[n - 1]];
      JoinWithSnoc(head, last, sep);
      JoinWithSnoc(head, init[n - 1], sep);
    }
  }

  /** The text after the last `c` of `s`: all of `s` when it holds no `c`. */
  function AfterLast(s: string, c: char): (r: string)
    ensures EndsWith(s, r)
    ensures c !in r
    ensures |r| < |s| ==> s[|s| - |r| - 1] == c
    ensures c !in s ==> r == s
    decreases |s|
  {
    if s == [] then []
    else if s[|s| - 1] == c then []
    else AfterLast(s[..|s| - 1], c) + [s[|s| - 1]]
  }

  /** The suffix after the last `c` is unchanged by anything written before a `c`. */
  lemma {:induction false} AfterLastPastSeparator(a: string, c: char, b: string)
    requires c !in b
    ensures AfterLast(a + [c] + b, c) == b
    decreases |b|
  {
    var s := a + [c] + b;
    if b == [] {
      assert s[|s| - 1] == c;
    } else {
      assert s[..|s| - 1] == a + [c] + b[..|b| - 1];
      AfterLastPastSeparator(a, c, b[..|b| - 1]);
      assert b == b[..|b| - 1] + [b[|b| - 1]];
    }
  }

  /** The extension `get_upload_path` keeps: `filename.split('.')[-1]`. */
  function Extension(filename: string): (ext: string)
    ensures '.' !in ext
    ensures '.' !in filename ==> ext == filename
  {
    var parts := Split(filename, '.');
    LastSegmentIsAfterLast(filename, '.');
    parts[|parts| - 1]
  }

  /** The last segment of a split is the text after the last separator. */
  lemma {:induction false} LastSegmentIsAfterLast(s: string, sep: char)
    ensures var parts := Split(s, sep); parts[|parts| - 1] == AfterLast(s, sep)
    decreases |s|
  {
    if s != [] {
      var front, c := s[..|s| - 1], s[|s| - 1];
      var init := Split(front, sep);
      var n := |init|;
      LastSegmentIsAfterLast(front, sep);
      if c == sep {
        assert Split(s, sep) == init + [""];
        assert AfterLast(s, sep) == [];
      } else {
        assert Split(s, sep) == init[..n - 1] + [init[n - 1] + [c]];
        assert AfterLast(s, sep) == AfterLast(front, sep) + [c];
      }
    }
  }

  /** The extension is the text after the last `.`; it never holds a `.`. */
  lemma ExtensionIsAfterLastDot(filename: string)
    ensures Extension(filename) == AfterLast(filename, '.')
    ensures '.' !in Extension(filename)
    ensures '.' !in filename ==> Extension(filename) == filename
  {
    LastSegmentIsAfterLast(filename, '.');
  }

  /** Python `os.path.join(a, b)` on POSIX for two components. */
  function PathJoin(a: string, b: string): string {
    if StartsWith(b, "/") then b
    else if a == "" || EndsWith(a, "/") then a + b
    else a + "/" + b
  }

  /**
   * `os.path.join(a, b)` ends with `b`; it is `b` alone when `b` is absolute
   * and otherwise starts with `a`: directly followed by `b` when `a` is
   * empty or ends in `/`, and with one `/` added between them otherwise.
   */
  lemma PathJoinShape(a: string, b: string)
    ensures EndsWith(PathJoin(a, b), b)
    ensures StartsWith(b, "/") ==> PathJoin(a, b) == b
    ensures !StartsWith(b, "/") ==> StartsWith(PathJoin(a, b), a)
    ensures !StartsWith(b, "/") && (a == "" || EndsWith(a, "/")) ==> PathJoin(a, b) == a + b
    ensures !StartsWith(b, "/") && a != "" && !EndsWith(a, "/") ==> PathJoin(a, b) == a + "/" + b
  {
    var p := PathJoin(a, b);
    assert p[|p| - |b|..] == b;
    if !StartsWith(b, "/") {
      assert p[..|a|] == a;
    }
  }

  /** Python `os.path.basename(p)`: the text after the last `/`. */
  function Basename(p: string): (name: string)
    ensures '/' !in name && EndsWith(p, name)
    ensures |name| < |p| ==> p[|p| - |name| - 1] == '/'
  {
    AfterLast(p, '/')
  }

  /**
   * `get_upload_path(instance, filename)`: the storage path of an uploaded
   * image. `uuid` is the text of the `uuid4()` the source draws; the unused
   * `instance` argument is dropped.
   */
  function UploadPath(uuid: string, filename: string): (path: string)
    ensures EndsWith(path, uuid + "." + Extension(filename))
  {
    PathJoinShape("uploads/", uuid + "." + Extension(filename));
    PathJoin("uploads/", uuid + "." + Extension(filename))
  }

  /** The stored name keeps the uploaded file's extension, after a dot. */
  lemma UploadPathKeepsExtension(uuid: string, filename: string)
    ensures EndsWith(UploadPath(uuid, filename), "." + Extension(filename))
  {
    var ext := Extension(filename);
    var path := UploadPath(uuid, filename);
    var b := uuid + "." + ext;
    assert b[|b| - |"." + ext|..] == "." + ext;
    assert path[|path| - |"." + ext|..] == b[|b| - |"." + ext|..];
  }

  /**
   * For a uuid text (which holds no `/`), the path is `uploads/<uuid>.<ext>`,
   * so it always lies under `uploads/`.
   */
  lemma UploadPathShape(uuid: string, filename: string)
    requires '/' !in uuid
    ensures UploadPath(uuid, filename) == "uploads/" + uuid + "." + Extension(filename)
    ensures StartsWith(UploadPath(uuid, filename), "uploads/")
  {
    var b := uuid + "." + Extension(filename);
    assert !StartsWith(b, "/") by {
      if uuid != [] { assert b[0] == uuid[0]; } else { assert b[0] == '.'; }
    }
    assert EndsWith("uploads/", "/");
  }

  /** The stored file's basename is `<uuid>.<ext>` when the uploaded name holds no `/`. */
  lemma UploadBasename(uuid: string, filename: string)
    requires '/' !in uuid && '/' !in filename
    ensures Basename(UploadPath(uuid, filename)) == uuid + "." + Extension(filename)
  {
    var ext := Extension(filename);
    var name := uuid + "." + ext;
    UploadPathShape(uuid, filename);
    assert '/' !in ext by {
      ExtensionIsAfterLastDot(filename);
      assert ext == filename[|filename| - |ext|..];
    }
    assert '/' !in name;
    assert "uploads/" + uuid + "." + ext == "uploads" + ['/'] + name;
    AfterLastPastSeparator("uploads", '/', name);
  }

  // ---------------------------------------------------------------------
  // The record.

  /**
   * The value of the `image` field: the file's name and whether it has been
   * written to storage yet. The field is truthy exactly when the name is
   * non-empty.
   */
  datatype ImageFile = ImageFile(name: string, committed: bool)

  /**
   * What storing the image on the record's save does: an uncommitted, named
   * file is written under the path `get_upload_path` gives.
   */
  function StoredImage(image: ImageFile, uuid: string): (r: ImageFile)
    ensures image.committed || image.name == "" ==> r == image
    ensures image.name != "" ==> r.committed
    ensures image.name != "" && !image.committed ==> EndsWith(r.name, "." + Extension(image.name))
  {
    if image.name != "" && !image.committed then
      UploadPathKeepsExtension(uuid, image.name);
      ImageFile(UploadPath(uuid, image.name), true)
    else image
  }

  /**
   * The `original_filename` that `save` leaves: the basename of the image's
   * name on the first save of a record that has an image and a blank
   * filename, the filename as it was otherwise.
   */
  function SavedFilename(pk: Option<nat>, image: ImageFile, original: string): (r: string)
    ensures pk.None? && image.name != "" && original == "" ==>
              && EndsWith(image.name, r) && '/' !in r
              && (|r| < |image.name| ==> image.name[|image.name| - |r| - 1] == '/')
    ensures pk.None? && image.name != "" && original == "" && '/' !in image.name ==> r == image.name
    ensures pk.Some? || image.name == "" || original != "" ==> r == original
  {
    if pk.None? && image.name != "" && original == "" then Basename(image.name) else original
  }

  /** One row of the `ProcessedImage` table, as a save writes it. */
  datatype Row = Row(
    pk: Option<nat>,
    image: ImageFile,
    originalFilename: string,
    status: Status,
    tesseractText: Option<string>,
    geminiText: Option<string>,
    finalText: Option<string>,
    uploadedAt: int,
    processedAt: Option<int>)

  /** A primary key the `AutoField` assigns: these start at 1, so a saved record's key is never falsy. */
  type Pk = n: nat | n > 0 witness 1

  /** A `ProcessedImage` instance; its fields are updated in place before each save. */
  class ProcessedImage {
    var pk: Option<nat>
    var image: ImageFile
    var originalFilename: string
    var status: Status
    var tesseractText: Option<string>
    var geminiText: Option<string>
    var finalText: Option<string>
    var uploadedAt: int
    var processedAt: Option<int>

    /**
     * `ProcessedImage(image=..., ...)`, not yet saved. `now` is the
     * `timezone.now()` reading for `uploaded_at`; the other fields take
     * their declared defaults, status PENDING among them.
     */
    constructor (image: ImageFile, now: int, originalFilename: string := "", status: Status := Pending)
      ensures this.pk == None && this.image == image && this.originalFilename == originalFilename
      ensures this.status == status && this.uploadedAt == now && this.processedAt == None
      ensures this.tesseractText == None && this.geminiText == None && this.finalText == None
    {
      this.pk := None;
      this.image := image;
      this.originalFilename := originalFilename;
      this.status := status;
      this.tesseractText := None;
      this.geminiText := None;
      this.finalText := None;
      this.uploadedAt := now;
      this.processedAt := None;
    }

    /** The row this instance writes when saved. */
    function Snapshot(): Row
      reads this
    {
      Row(pk, image, originalFilename, status, tesseractText, geminiText, finalText, uploadedAt, processedAt)
    }

    /**
     * `save()`: fills in `original_filename` on first save, then stores the
     * image and, on first save, takes the primary key the database assigns
     * (`assignedPk`); `uuid` is the one `get_upload_path` draws.
     */
    method Save(assignedPk: nat, uuid: string)
      modifies this
      ensures originalFilename == SavedFilename(old(pk), old(image), old(originalFilename))
      ensures pk == Some(old(pk).GetOr(assignedPk))
      ensures image == StoredImage(old(image), uuid)
      ensures status == old(status) && uploadedAt == old(uploadedAt) && processedAt == old(processedAt)
      ensures tesseractText == old(tesseractText) && geminiText == old(geminiText) && finalText == old(finalText)
    {
      if pk.None? && image.name != "" {
        if originalFilename == "" {
          originalFilename := Basename(image.name);
        }
      }
      image := StoredImage(image, uuid);
      if pk.None? {
        pk := Some(assignedPk);
      }
    }
  }

  /** A second save changes neither the filename nor the stored image. */
  lemma ResaveKeepsNameAndImage(pk: nat, image: ImageFile, original: string, uuid: string, uuid2: string)
    ensures var name := SavedFilename(None, image, original);
            var stored := StoredImage(image, uuid);
            SavedFilename(Some(pk), stored, name) == name && StoredImage(stored, uuid2) == stored
  {
  }
}

=== FILE: protocol.dfy ===
/** The JSON document the upload endpoint returns and the browser reads. */
module Protocol {
  import opened Wrappers

  /**
   * One element of the reply's `results` list: `{id, status, imageUrl,
   * filename, finalText, error}`. A field that is JSON `null` (or absent) is
   * `None`; the server always sends `status` as one of the status strings.
   */
  datatype ResultEntry = ResultEntry(
    id: Option<nat>,
    status: string,
    imageUrl: Option<string>,
    filename: Option<string>,
    finalText: Option<string>,
    error: Option<string>)
}

=== FILE: result_view.dfy ===
/**
 * `renderResultItem`: what one result entry of the reply is shown as.
 * The template's elements become the fields of `ItemView`; an element's
 * text that the code leaves alone, in the branch that hides it, is `None`.
 */
module ResultView {
  import opened Wrappers
  import opened Text
  import opened Protocol
  import DownloadName

  const CompletedStatus := "COMPLETED"
  const UnknownFile := "Unknown File"
  const NoTextExtracted := "(No text extracted)"
  const UnknownError := "An unknown error occurred."

  /** The class added to the badge after its classes are reset to `status-badge badge`. */
  datatype Badge = Success | Danger {
    function ClassName(): string {
      match this
      case Success => "status-badge badge bg-success"
      case Danger => "status-badge badge bg-danger"
    }
  }

  /** `data-id`: the server's id, or `error-<Date.now()>` when the id is falsy (the time is not modelled). */
  datatype DataId = ServerId(text: string) | Timestamped

  /** The image preview, when shown: the `img` element's `src` and `alt`. */
  datatype Preview = Preview(src: string, alt: string)

  /**
   * What the Copy and Download buttons act on: the text the clipboard gets
   * (JSON `null` as `None`), and the file the download saves.
   */
  datatype Actions = Actions(copyText: Option<string>, downloadName: string, downloadContent: string)

  /**
   * One rendered item. `text` is the result text container: `Some` when it
   * is shown, holding the text put in it. `error` likewise for the error
   * message, `preview` for the image preview, `actions` for whether the
   * buttons are wired.
   */
  datatype ItemView = ItemView(
    dataId: DataId,
    filename: string,
    badgeText: string,
    badge: Badge,
    text: Option<string>,
    error: Option<string>,
    preview: Option<Preview>,
    actions: Option<Actions>)

  /** `${id}` for a JSON number or `null`. */
  function IdText(id: Option<nat>): string {
    match id
    case None => "null"
    case Some(n) => Decimal(n)
  }

  /** A JSON id is truthy unless it is `null` or `0`. */
  predicate IdTruthy(id: Option<nat>) {
    id.Some? && id.value != 0
  }

  /** The name handed to the Download button: the filename, or `result-<id>.txt`. */
  function DownloadSource(entry: ResultEntry): (r: string)
    ensures r != ""
    ensures Truthy(entry.filename) ==> r == entry.filename.value
    ensures !Truthy(entry.filename) ==> StartsWith(r, "result-") && EndsWith(r, ".txt")
    ensures !Truthy(entry.filename) ==> r == "result-" + IdText(entry.id) + ".txt"
  {
    Or(entry.filename, "result-" + IdText(entry.id) + ".txt")
  }

  /** `renderResultItem(data)`. */
  function Render(entry: ResultEntry): (v: ItemView)
    ensures v.filename == Or(entry.filename, UnknownFile) && v.filename != ""
    ensures v.badgeText == entry.status
    ensures v.badge == Success <==> entry.status == CompletedStatus
    ensures v.text.Some? <==> entry.status == CompletedStatus
    ensures v.error.Some? <==> entry.status != CompletedStatus
    ensures v.actions.Some? <==> entry.status == CompletedStatus
    ensures v.text.Some? ==> v.text.value == Or(entry.finalText, NoTextExtracted) && v.text.value != ""
    ensures v.error.Some? ==> v.error.value == Or(entry.error, UnknownError) && v.error.value != ""
    ensures v.preview.Some? <==> Truthy(entry.imageUrl)
    ensures v.preview.Some? ==> v.preview.value.src == entry.imageUrl.value
    ensures v.actions.Some? ==>
              v.actions.value.downloadName == DownloadName.SafeFilename(DownloadSource(entry))
              && v.actions.value.downloadContent == entry.finalText.GetOr("")
              && v.actions.value.copyText == entry.finalText
    ensures v.preview.Some? ==>
              v.preview.value.alt == (if entry.status == CompletedStatus then "" else "Failed: ")
                                     + Or(entry.filename, "Image " + IdText(entry.id))
    ensures v.dataId == if IdTruthy(entry.id) then ServerId(IdText(entry.id)) else Timestamped
  {
    var dataId := if IdTruthy(entry.id) then ServerId(IdText(entry.id)) else Timestamped;
    var filename := Or(entry.filename, UnknownFile);
    var imageName := Or(entry.filename, "Image " + IdText(entry.id));
    if entry.status == CompletedStatus then
      var actions := Actions(entry.finalText, DownloadName.SafeFilename(DownloadSource(entry)),
                             Or(entry.finalText, ""));
      var preview := if Truthy(entry.imageUrl) then Some(Preview(entry.imageUrl.value, imageName)) else None;
      ItemView(dataId, filename, entry.status, Success, Some(Or(entry.finalText, NoTextExtracted)), None,
               preview, Some(actions))
    else
      var preview :=
        if Truthy(entry.imageUrl) then Some(Preview(entry.imageUrl.value, "Failed: " + imageName)) else None;
      ItemView(dataId, filename, entry.status, Danger, None, Some(Or(entry.error, UnknownError)), preview, None)
  }

  /** Exactly one of the text and the error is shown, and the badge agrees with which. */
  lemma TextOrErrorShown(entry: ResultEntry)
    ensures var v := Render(entry);
            (v.text.Some? != v.error.Some?) && (v.badge == Success <==> v.text.Some?)
  {
  }
}

=== FILE: round_trip.dfy ===
/**
 * The client and the view together: a batch the widget posts reaches the
 * view as one upload per image, and what the view answers is what the
 * widget then shows.
 */
module RoundTrip {
  import opened Wrappers
  import opened Text
  import opened Protocol
  import opened Models
  import UploadRequest
  import Views
  import ResultView

  /**
   * What Django's multipart parser makes of the form, for file names it
   * leaves alone: each part's field, and a file named by its filename.
   * The parser's own renaming (HTML unescaping, dropping directories,
   * removing non-printable characters, truncation) is not modelled, nor
   * the browser's percent-escaping of `"`, CR and LF in filenames, nor the
   * limit on the number of file parts per request.
   */
  function ToServer(parts: seq<UploadRequest.FormPart>): (server: seq<Views.FilePart>)
    ensures |server| == |parts|
    ensures forall i :: 0 <= i < |parts| ==>
              server[i] == Views.FilePart(parts[i].field, Views.UploadedFile(parts[i].filename))
    decreases |parts|
  {
    if parts == [] then []
    else
      var n := |parts| - 1;
      ToServer(parts[..n]) + [Views.FilePart(parts[n].field, Views.UploadedFile(parts[n].filename))]
  }

  /**
   * The view's reply as the browser receives it over HTTP/1.1: the JSON
   * document with `results`, or the 400 page, whose text body is not JSON,
   * with the reason phrase `Bad Request` as its status text.
   */
  function Transport(response: Views.Response): (r: UploadRequest.Reply)
    ensures r.HttpReply? && (r.ok <==> response.JsonResults?) && (r.body.Parsed? <==> response.JsonResults?)
    ensures response.JsonResults? ==> r.body.doc.results == Some(response.results)
    ensures response.BadRequest? ==> r.statusText == "Bad Request"
  {
    match response
    case JsonResults(results) =>
      UploadRequest.HttpReply(true, "OK", Some("application/json"),
                              UploadRequest.Parsed(UploadRequest.JsonDoc(None, None, Some(results))))
    case BadRequest(message) =>
      UploadRequest.HttpReply(false, "Bad Request", Some("text/html; charset=utf-8"),
                              UploadRequest.Unparsable("body is not JSON: " + message))
  }

  /** The client's and the view's field names agree. */
  lemma FieldNamesAgree()
    ensures UploadRequest.ImagesField == Views.ImagesField
  {
  }

  /**
   * A batch with at least one image, every image named, is never a bad
   * request: the view answers one entry per image, in selection order, each
   * naming its image.
   */
  lemma {:induction false} BatchGetsOneEntryPerImage(files: seq<UploadRequest.FileEntry>,
                                                     outcomes: seq<Views.FileOutcome>,
                                                     mediaRoot: string, mediaUrl: string)
    requires UploadRequest.ImageParts(files) != []
    requires forall i :: 0 <= i < |files| && UploadRequest.IsImage(files[i]) ==> files[i].name != ""
    requires |outcomes| == |UploadRequest.ImageParts(files)|
    ensures var sent := UploadRequest.ImageParts(files);
            var server := ToServer(sent);
            && |Views.GetList(server, Views.ImagesField)| == |sent|
            && var r := Views.Respond(server, outcomes, mediaRoot, mediaUrl);
               && r.JsonResults? && |r.results| == |sent|
               && forall i :: 0 <= i < |sent| ==> r.results[i].filename == Some(sent[i].file.name)
  {
    var sent := UploadRequest.ImageParts(files);
    var server := ToServer(sent);
    UploadRequest.ImagePartsExactly(files);
    forall i | 0 <= i < |server| ensures server[i].field == Views.ImagesField && server[i].file.name != "" {
      assert sent[i] in sent;
      assert UploadRequest.PartFor(sent[i].file) == sent[i];
      var k :| 0 <= k < |files| && files[k] == sent[i].file;
    }
    Views.GetListAllUnder(server, Views.ImagesField);
    Views.OneEntryPerImage(server, outcomes, mediaRoot, mediaUrl);
    var got := Views.GetList(server, Views.ImagesField);
    forall i | 0 <= i < |sent| ensures got[i].name == sent[i].file.name {
      assert got[i] == server[i].file;
      assert sent[i] in sent;
    }
  }

  /** A stored image always has a non-empty name, so its URL is non-empty. */
  lemma UploadPathNonEmpty(uuid: string, filename: string)
    ensures UploadPath(uuid, filename) != ""
  {
    var b := uuid + "." + Extension(filename);
    assert b[|uuid|] == '.';
  }

  /**
   * How the widget shows one entry of the view: under the uploaded name;
   * green exactly when processing finished; a failure's message is the
   * view's `Processing failed: ...`, never the client's fallback; and the
   * image is previewed exactly when the record was created.
   */
  lemma ServerEntryRendering(file: Views.UploadedFile, outcome: Views.FileOutcome, mediaRoot: string, mediaUrl: string)
    requires file.name != ""
    ensures var v := ResultView.Render(Views.EntryFor(file, outcome, mediaRoot, mediaUrl));
            && v.filename == file.name
            && (v.badge == ResultView.Success <==> outcome.Created? && outcome.stage.PipelineDone?)
            && (v.error.Some? ==> StartsWith(v.error.value, Views.FailurePrefix) && v.error.value != ResultView.UnknownError)
            && (v.preview.Some? <==> outcome.Created?)
            && (v.dataId.ServerId? <==> outcome.Created?)
            && (v.text.Some? ==> v.text.value == Or(Some(outcome.stage.merged), ResultView.NoTextExtracted))
  {
    var e := Views.EntryFor(file, outcome, mediaRoot, mediaUrl);
    Views.EntryStatusFixesFields(file, outcome, mediaRoot, mediaUrl);
    if e.error.Some? {
      assert e.error.value[..|Views.FailurePrefix|] == Views.FailurePrefix;
      assert ResultView.UnknownError[..|Views.FailurePrefix|] != Views.FailurePrefix by {
        assert ResultView.UnknownError[0] != Views.FailurePrefix[0];
      }
    }
    if outcome.Created? {
      UploadPathNonEmpty(outcome.uuid, file.name);
      assert Truthy(e.imageUrl) && ResultView.IdTruthy(e.id);
    } else {
      assert e.imageUrl.None? && e.id.None?;
    }
  }

  /** The JSON reply is delivered to the widget as it stands. */
  lemma JsonReplyDelivered(results: seq<ResultEntry>)
    ensures UploadRequest.Settle(Transport(Views.JsonResults(results))) == UploadRequest.Delivered(results)
  {
    var t := "application/json";
    assert OccursAt(t, UploadRequest.JsonMediaType, 0);
  }

  /** An empty request is shown as `Error: Upload failed: Bad Request`, not as the view's message. */
  lemma BadRequestShown(message: string)
    ensures UploadRequest.Settle(Transport(Views.BadRequest(message)))
            == UploadRequest.Rejected(UploadRequest.UploadFailedPrefix + "Bad Request")
  {
  }
}

=== FILE: text.dfy ===
/**
 * String helpers shared by the server and the client models: prefix and
 * substring tests, JavaScript truthiness of optional strings, and decimal
 * rendering of identifiers.
 */
module Text {
  import opened Wrappers

  /** `s.startsWith(p)` in JavaScript, `s.startswith(p)` in Python. */
  predicate StartsWith(s: string, p: string) {
    |p| <= |s| && s[..|p|] == p
  }

  /** `s.endsWith(p)`. */
  predicate EndsWith(s: string, p: string) {
    |p| <= |s| && s[|s| - |p|..] == p
  }

  /** `s.includes(p)`: scans `s` position by position for a match of `p`. */
  predicate Includes(s: string, p: string)
    decreases |s|
  {
    StartsWith(s, p) || (s != [] && Includes(s[1..], p))
  }

  /** `p` occurs in `s` starting at index `i`. */
  predicate OccursAt(s: string, p: string, i: int) {
    0 <= i <= |s| - |p| && s[i..i + |p|] == p
  }

  /** `Includes` holds exactly when `p` occurs in `s` at some index. */
  lemma {:induction false} IncludesIffOccurs(s: string, p: string)
    ensures Includes(s, p) <==> exists i :: OccursAt(s, p, i)
    decreases |s|
  {
    if StartsWith(s, p) {
      assert OccursAt(s, p, 0);
    }
    if s != [] {
      IncludesIffOccurs(s[1..], p);
      if Includes(s[1..], p) {
        var i :| OccursAt(s[1..], p, i);
        assert OccursAt(s, p, i + 1);
      }
      if i :| OccursAt(s, p, i) {
        if i > 0 {
          assert OccursAt(s[1..], p, i - 1);
        } else {
          assert StartsWith(s, p);
        }
      }
    }
  }

  /** JavaScript truthiness of a JSON field holding a string, null or nothing. */
  predicate Truthy(v: Option<string>) {
    v.Some? && v.value != ""
  }

  /** `v || fallback` for such a field. */
  function Or(v: Option<string>, fallback: string): string {
    if Truthy(v) then v.value else fallback
  }

  predicate IsDigit(c: char) {
    '0' <= c <= '9'
  }

  /** The decimal text of `n`, as a template literal `${n}` renders a non-negative integer. */
  function Decimal(n: nat): (r: string)
    ensures r != []
    ensures forall i :: 0 <= i < |r| ==> IsDigit(r[i])
    ensures |r| > 1 ==> r[0] != '0'
  {
    if n < 10 then [DigitChar(n)] else Decimal(n / 10) + [DigitChar(n % 10)]
  }

  function DigitChar(d: nat): (c: char)
    requires d < 10
    ensures IsDigit(c)
  {
    "0123456789"[d]
  }
}

=== FILE: upload_request.dfy ===
/**
 * The decisions `handleFiles` makes around the upload request: which
 * selected files are sent, and how the reply settles the batch.
 */
module UploadRequest {
  import opened Wrappers
  import opened Text
  import opened Protocol

  /** A file from a drop or from the picker: its name and its declared media type (`file.type`). */
  datatype FileEntry = FileEntry(name: string, mediaType: string)

  /** One `formData.append(field, file, filename)`. */
  datatype FormPart = FormPart(field: string, file: FileEntry, filename: string)

  const ImagesField := "images"
  const NoValidFilesAlert := "No valid image files selected."
  const NonJsonMessage := "Received non-JSON response from server."
  const JsonMediaType := "application/json"
  const UploadFailedPrefix := "Upload failed: "

  /** Only files whose media type starts with `image/` are uploaded. */
  predicate IsImage(f: FileEntry) {
    StartsWith(f.mediaType, "image/")
  }

  /** The part appended for an image file. */
  function PartFor(f: FileEntry): FormPart {
    FormPart(ImagesField, f, f.name)
  }

  /** The form parts the upload sends for a selection: one per image file, in selection order. */
  function ImageParts(files: seq<FileEntry>): (parts: seq<FormPart>)
    ensures |parts| <= |files|
    decreases |files|
  {
    if files == [] then []
    else
      var n := |files| - 1;
      ImageParts(files[..n]) + (if IsImage(files[n]) then [PartFor(files[n])] else [])
  }

  /** Selection order is kept: the parts for two selections back to back are those of each in turn. */
  lemma {:induction false} ImagePartsAppend(a: seq<FileEntry>, b: seq<FileEntry>)
    ensures ImageParts(a + b) == ImageParts(a) + ImageParts(b)
    decreases |b|
  {
    if b == [] {
      assert a + b == a;
    } else {
      var n := |b| - 1;
      assert (a + b)[..|a| + n] == a + b[..n];
      assert (a + b)[|a| + n] == b[n];
      ImagePartsAppend(a, b[..n]);
    }
  }

  /**
   * A part is sent for a file exactly when it is an image of the selection;
   * every part is under the field `images` and carries the file's own name.
   */
  lemma {:induction false} ImagePartsExactly(files: seq<FileEntry>)
    ensures forall p :: p in ImageParts(files) ==> p.field == ImagesField && p.filename == p.file.name
    ensures forall f :: PartFor(f) in ImageParts(files) <==> f in files && IsImage(f)
    decreases |files|
  {
    if files != [] {
      var n := |files| - 1;
      ImagePartsExactly(files[..n]);
      assert files == files[..n] + [files[n]];
    }
  }

  /** No part is sent exactly when no file of the selection is an image. */
  lemma {:induction false} ImagePartsEmpty(files: seq<FileEntry>)
    ensures ImageParts(files) == [] <==> forall i :: 0 <= i < |files| ==> !IsImage(files[i])
    decreases |files|
  {
    if files != [] {
      var n := |files| - 1;
      ImagePartsEmpty(files[..n]);
      assert forall i :: 0 <= i < n ==> files[..n][i] == files[i];
    }
  }

  /** When every file is an image, every file is sent, in order. */
  lemma {:induction false} ImagePartsAllImages(files: seq<FileEntry>)
    requires forall i :: 0 <= i < |files| ==> IsImage(files[i])
    ensures |ImageParts(files)| == |files|
    ensures forall i :: 0 <= i < |files| ==> ImageParts(files)[i] == PartFor(files[i])
    decreases |files|
  {
    if files != [] {
      var n := |files| - 1;
      ImagePartsAllImages(files[..n]);
    }
  }

  /**
   * The `for (const file of files)` loop of `handleFiles`: appends each
   * image to the form data and notes whether any was found.
   */
  method CollectImages(files: seq<FileEntry>) returns (formData: seq<FormPart>, validFiles: bool)
    ensures formData == ImageParts(files)
    ensures validFiles <==> exists i :: 0 <= i < |files| && IsImage(files[i])
  {
    formData := [];
    validFiles := false;
    for i := 0 to |files|
      invariant formData == ImageParts(files[..i])
      invariant validFiles <==> exists j :: 0 <= j < i && IsImage(files[j])
    {
      var file := files[i];
      if IsImage(file) {
        formData := formData + [FormPart(ImagesField, file, file.name)];
        validFiles := true;
      }
      assert files[..i + 1][..i] == files[..i];
    }
    assert files[..|files|] == files;
  }

  // ---------------------------------------------------------------------
  // The reply.

  /**
   * What a reply body that parses to a JSON object holds: the fields the
   * client looks at, each absent, null or a string (a list for `results`).
   */
  datatype JsonDoc = JsonDoc(detail: Option<string>, error: Option<string>, results: Option<seq<ResultEntry>>)

  /** `response.json()`: rejects with a message, or yields the document. */
  datatype Body = Unparsable(reason: string) | Parsed(doc: JsonDoc)

  /** How `fetch` settles: it rejects with a message, or yields a response. */
  datatype Reply =
    | NetworkError(reason: string)
    | HttpReply(ok: bool, statusText: string, contentType: Option<string>, body: Body)

  /**
   * The message for a reply that is not OK: `detail` if truthy, else
   * `error` if truthy, else `Upload failed: <statusText>`, which is also what
   * an unparsable body leaves.
   */
  function ErrorText(statusText: string, body: Body): (text: string)
    ensures text != ""
    ensures body.Unparsable? ==> text == UploadFailedPrefix + statusText
    ensures body.Parsed? && Truthy(body.doc.detail) ==> text == body.doc.detail.value
    ensures body.Parsed? && !Truthy(body.doc.detail) && Truthy(body.doc.error) ==> text == body.doc.error.value
    ensures text == UploadFailedPrefix + statusText
            || (body.Parsed? && (body.doc.detail == Some(text) || body.doc.error == Some(text)))
  {
    var fallback := UploadFailedPrefix + statusText;
    match body
    case Unparsable(_) => fallback
    case Parsed(doc) => Or(doc.detail, Or(doc.error, fallback))
  }

  /** The content-type gate: a header is present and contains `application/json`. */
  function AcceptsJson(contentType: Option<string>): (accepted: bool)
    ensures accepted <==> contentType.Some? && exists i :: OccursAt(contentType.value, JsonMediaType, i)
  {
    match contentType
    case None => false
    case Some(value) =>
      IncludesIffOccurs(value, JsonMediaType);
      value != "" && Includes(value, JsonMediaType)
  }

  /** How a batch ends once the request is made. */
  datatype Settlement =
    | Rejected(message: string)            // an Error was thrown with this message
    | Delivered(results: seq<ResultEntry>) // the reply's results; empty when absent

  /** The `try` block of `handleFiles` from the `fetch` on. */
  function Settle(reply: Reply): (s: Settlement)
    ensures s.Delivered? <==> reply.HttpReply? && reply.ok && AcceptsJson(reply.contentType) && reply.body.Parsed?
    ensures reply.NetworkError? ==> s == Rejected(reply.reason)
    ensures reply.HttpReply? && !reply.ok ==> s == Rejected(ErrorText(reply.statusText, reply.body))
    ensures reply.HttpReply? && reply.ok && !AcceptsJson(reply.contentType) ==> s == Rejected(NonJsonMessage)
    ensures s.Delivered? ==> s.results == reply.body.doc.results.GetOr([])
  {
    match reply
    case NetworkError(reason) => Rejected(reason)
    case HttpReply(ok, statusText, contentType, body) =>
      if !ok then Rejected(ErrorText(statusText, body))
      else if !AcceptsJson(contentType) then Rejected(NonJsonMessage)
      else
        match body
        case Unparsable(reason) => Rejected(reason)
        case Parsed(doc) => Delivered(doc.results.GetOr([]))
  }
}

=== FILE: upload_widget.dfy ===
/**
 * The upload widget's page state and `handleFiles`, which runs one batch:
 * it filters the selection, makes the request, and fills the results
 * container from the reply. The network reply is a parameter.
 */
module UploadWidget {
  import opened Protocol
  import opened UploadRequest
  import opened ResultView

  const NoResultsText := "No results were returned."
  const ErrorPrefix := "Error: "

  /** A child of the results container. */
  datatype Node =
    | Item(view: ItemView)     // a rendered result entry
    | Placeholder(text: string) // the muted "no results" paragraph
    | ErrorAlert(text: string)  // the danger alert for a failed batch

  /** The items for a list of entries, one per entry, in order. */
  function RenderAll(results: seq<ResultEntry>): (nodes: seq<Node>)
    ensures |nodes| == |results|
    decreases |results|
  {
    if results == [] then []
    else
      var n := |results| - 1;
      RenderAll(results[..n]) + [Item(Render(results[n]))]
  }

  /** Item `i` renders entry `i`. */
  lemma {:induction false} RenderAllAt(results: seq<ResultEntry>, i: nat)
    requires i < |results|
    ensures RenderAll(results)[i] == Item(Render(results[i]))
    decreases |results|
  {
    var n := |results| - 1;
    if i < n {
      var init := RenderAll(results[..n]);
      RenderAllAt(results[..n], i);
      assert RenderAll(results)[i] == init[i];
    }
  }

  /** One more entry adds its item at the end. */
  lemma RenderAllSnoc(results: seq<ResultEntry>, i: nat)
    requires i < |results|
    ensures RenderAll(results[..i + 1]) == RenderAll(results[..i]) + [Item(Render(results[i]))]
  {
    var r := results[..i + 1];
    assert r[..i] == results[..i] && r[i] == results[i];
  }

  /** What the results container holds once a batch that made its request has settled. */
  function ContainerFor(s: Settlement): (c: seq<Node>)
    ensures |c| >= 1
    ensures s.Delivered? && s.results != [] ==> |c| == |s.results|
  {
    match s
    case Rejected(message) => [ErrorAlert(ErrorPrefix + message)]
    case Delivered(results) => if |results| > 0 then RenderAll(results) else [Placeholder(NoResultsText)]
  }

  /**
   * A non-empty result list shows one item per entry, in server order; an
   * empty one shows only the placeholder; a failed batch only one alert.
   */
  lemma ContainerShape(s: Settlement)
    ensures var c := ContainerFor(s);
            && (s.Rejected? ==> c == [ErrorAlert(ErrorPrefix + s.message)])
            && (s.Delivered? && s.results == [] ==> c == [Placeholder(NoResultsText)])
            && (s.Delivered? && s.results != [] ==>
                  |c| == |s.results| && forall i :: 0 <= i < |c| ==> c[i] == Item(Render(s.results[i])))
  {
    if s.Delivered? {
      forall i | 0 <= i < |s.results| ensures RenderAll(s.results)[i] == Item(Render(s.results[i])) {
        RenderAllAt(s.results, i);
      }
    }
  }

  class Widget {
    var spinnerShown: bool
    var resultsAreaShown: bool
    var container: seq<Node>
    var fileInputValue: string
    /** The alerts raised, in order. */
    var alerts: seq<string>
    /** The bodies of the `POST /api/upload/` requests made, in order. */
    var requests: seq<seq<FormPart>>
    /** Every value the spinner's display was set to, in order. */
    ghost var spinnerHistory: seq<bool>

    /** `renderResultItem(data)`: appends the rendered entry to the container. */
    method RenderResultItem(entry: ResultEntry)
      modifies this`container
      ensures container == old(container) + [Item(Render(entry))]
    {
      container := container + [Item(Render(entry))];
    }

    /** `data.results.forEach(renderResultItem)`. */
    method RenderResults(results: seq<ResultEntry>)
      modifies this`container
      ensures container == old(container) + RenderAll(results)
    {
      for i := 0 to |results|
        invariant container == old(container) + RenderAll(results[..i])
      {
        RenderAllSnoc(results, i);
        RenderResultItem(results[i]);
      }
      assert results[..|results|] == results;
    }

    /**
     * `handleFiles(files)`, with `reply` standing for what the `fetch`
     * comes to. A selection with no image aborts with an alert and no
     * request; otherwise exactly the images are posted, the container shows
     * what the reply settles to, and the spinner is hidden and the file
     * input reset whether the batch succeeded or not.
     */
    method HandleFiles(files: seq<FileEntry>, reply: Reply)
      modifies this
      ensures var parts := ImageParts(files);
              && requests == old(requests) + (if parts == [] then [] else [parts])
              && alerts == old(alerts) + (if parts == [] then [NoValidFilesAlert] else [])
              && spinnerHistory == old(spinnerHistory) + [true, false]
              && !spinnerShown
              && resultsAreaShown == (parts != [])
              && container == (if parts == [] then [] else ContainerFor(Settle(reply)))
              && fileInputValue == (if parts == [] then old(fileInputValue) else "")
    {
      spinnerShown := true;
      spinnerHistory := spinnerHistory + [true];
      container := [];
      resultsAreaShown := false;
      var formData, validFiles := CollectImages(files);
      ImagePartsEmpty(files);
      if !validFiles {
        spinnerShown := false;
        spinnerHistory := spinnerHistory + [false];
        alerts := alerts + [NoValidFilesAlert];
        return;
      }
      requests := requests + [formData];
      match Settle(reply) {
        case Rejected(message) =>
          resultsAreaShown := true;
          container := [ErrorAlert(ErrorPrefix + message)];
        case Delivered(results) =>
          if |results| > 0 {
            resultsAreaShown := true;
            RenderResults(results);
          } else {
            resultsAreaShown := true;
            container := [Placeholder(NoResultsText)];
          }
      }
      // the `finally` block
      spinnerShown := false;
      spinnerHistory := spinnerHistory + [false];
      fileInputValue := "";
    }
  }
}

=== FILE: views.dfy ===
/**
 * The upload endpoint: `ProcessImagesView.post` walks the uploaded images,
 * creates one record per file, runs the OCR pipeline on it and reports one
 * result entry per file.
 *
 * The record creation and the OCR pipeline are not modelled: what they come
 * to for each file is given as a `FileOutcome`, which also carries the
 * primary key the database assigns, the uuid drawn for the storage path and
 * the two clock readings.
 */
module Views {
  import opened Wrappers
  import opened Models
  import opened Protocol

  /** An uploaded file, known to the view by its name. */
  datatype UploadedFile = UploadedFile(name: string)

  /** One file part of the multipart request: the form field it was sent under, and the file. */
  datatype FilePart = FilePart(field: string, file: UploadedFile)

  /** `request.FILES.getlist(field)`: the files sent under `field`, in request order. */
  function GetList(parts: seq<FilePart>, field: string): (files: seq<UploadedFile>)
    ensures |files| <= |parts|
    decreases |parts|
  {
    if parts == [] then []
    else (if parts[0].field == field then [parts[0].file] else []) + GetList(parts[1..], field)
  }

  /** `getlist` keeps request order: it distributes over concatenation. */
  lemma {:induction false} GetListAppend(a: seq<FilePart>, b: seq<FilePart>, field: string)
    ensures GetList(a + b, field) == GetList(a, field) + GetList(b, field)
    decreases |a|
  {
    if a == [] {
      assert a + b == b;
    } else {
      var head := if a[0].field == field then [a[0].file] else [];
      assert (a + b)[0] == a[0];
      assert (a + b)[1..] == a[1..] + b;
      assert GetList(a + b, field) == head + GetList(a[1..] + b, field);
      GetListAppend(a[1..], b, field);
      assert GetList(a, field) == head + GetList(a[1..], field);
      assert head + (GetList(a[1..], field) + GetList(b, field)) == (head + GetList(a[1..], field)) + GetList(b, field);
    }
  }

  /** When every part is under `field`, `getlist` returns every file, in order. */
  lemma {:induction false} GetListAllUnder(parts: seq<FilePart>, field: string)
    requires forall i :: 0 <= i < |parts| ==> parts[i].field == field
    ensures |GetList(parts, field)| == |parts|
    ensures forall i :: 0 <= i < |parts| ==> GetList(parts, field)[i] == parts[i].file
    decreases |parts|
  {
    if parts != [] {
      GetListAllUnder(parts[1..], field);
    }
  }

  /** Files sent under other field names are not seen. */
  lemma {:induction false} GetListNoneUnder(parts: seq<FilePart>, field: string)
    requires forall i :: 0 <= i < |parts| ==> parts[i].field != field
    ensures GetList(parts, field) == []
    decreases |parts|
  {
    if parts != [] {
      GetListNoneUnder(parts[1..], field);
    }
  }

  /** How far processing got once the record existed. */
  datatype Stage =
    | FileMissing                     // the stored image is not at its path
    | PipelineFailed(message: string) // a pipeline step raised, with this message
    | PipelineDone(tesseract: string, gemini: string, merged: string)

  /**
   * What happened to one uploaded file: either creating its record raised,
   * or the record was created (with primary key `pk`, the `uuid` of its
   * storage path, `uploadedAt` as the creation time) and processing ended at
   * time `processedAt` in `stage`.
   */
  datatype FileOutcome =
    | CreateFailed(message: string)
    | Created(pk: Pk, uuid: string, uploadedAt: int, processedAt: int, stage: Stage)

  /** The view's reply: a 400 with a text body, or the JSON `{"results": [...]}`. */
  datatype Response = BadRequest(message: string) | JsonResults(results: seq<ResultEntry>)

  const NoFilesMessage := "No files were uploaded."
  const FailurePrefix := "Processing failed: "
  const ImagesField := "images"

  /** `image.url`: the public URL of a stored name under the media URL. */
  function ImageUrl(mediaUrl: string, name: string): string {
    mediaUrl + name
  }

  /** The record as `ProcessedImage.objects.create(...)` leaves it. */
  function CreatedRow(file: UploadedFile, pk: nat, uuid: string, uploadedAt: int): (r: Row)
    ensures r.pk == Some(pk) && r.status == Pending && r.uploadedAt == uploadedAt && r.processedAt.None?
    ensures r.tesseractText.None? && r.geminiText.None? && r.finalText.None?
    ensures r.originalFilename == file.name
    ensures file.name != "" ==> r.image.committed && Text.EndsWith(r.image.name, "." + Extension(file.name))
  {
    var image := ImageFile(file.name, false);
    Row(Some(pk), StoredImage(image, uuid), SavedFilename(None, image, file.name), Pending,
        None, None, None, uploadedAt, None)
  }

  /** The text of the exception a failing stage raises; `imagePath` is where the image was looked for. */
  function StageMessage(stage: Stage, imagePath: string): string
    requires !stage.PipelineDone?
  {
    match stage
    case FileMissing => "Image file not found at " + imagePath
    case PipelineFailed(message) => message
  }

  /** The rows written for one file, in order: none if creation raised, else the created and the finished record. */
  function Writes(file: UploadedFile, outcome: FileOutcome, mediaRoot: string): (w: seq<Row>)
    ensures outcome.CreateFailed? <==> w == []
    ensures outcome.Created? ==>
              && |w| == 2 && w[0] == CreatedRow(file, outcome.pk, outcome.uuid, outcome.uploadedAt)
              && w[1].pk == w[0].pk && w[1].image == w[0].image && w[1].originalFilename == w[0].originalFilename
              && w[1].uploadedAt == w[0].uploadedAt
              && w[1].status != Pending && w[1].processedAt == Some(outcome.processedAt)
  {
    match outcome
    case CreateFailed(_) => []
    case Created(pk, uuid, uploadedAt, processedAt, stage) =>
      var row := CreatedRow(file, pk, uuid, uploadedAt);
      var last :=
        match stage
        case PipelineDone(tesseract, gemini, merged) =>
          row.(tesseractText := Some(tesseract), geminiText := Some(gemini), finalText := Some(merged),
               status := Completed, processedAt := Some(processedAt))
        case _ =>
          row.(status := Failed,
               finalText := Some(FailurePrefix + StageMessage(stage, PathJoin(mediaRoot, row.image.name))),
               processedAt := Some(processedAt));
      [row, last]
  }

  /** The result entry reported for one file. */
  function EntryFor(file: UploadedFile, outcome: FileOutcome, mediaRoot: string, mediaUrl: string): (e: ResultEntry)
    ensures e.filename == Some(file.name)
    ensures e.id == if outcome.Created? then Some(outcome.pk as nat) else None
    ensures e.imageUrl.Some? ==> outcome.Created?
  {
    match outcome
    case CreateFailed(message) =>
      ResultEntry(None, Failed.Value(), None, Some(file.name), None, Some(FailurePrefix + message))
    case Created(pk, uuid, uploadedAt, _, stage) =>
      var row := CreatedRow(file, pk, uuid, uploadedAt);
      match stage
      case PipelineDone(_, _, merged) =>
        ResultEntry(row.pk, Completed.Value(), Some(ImageUrl(mediaUrl, row.image.name)),
                    Some(row.originalFilename), Some(merged), None)
      case _ =>
        ResultEntry(row.pk, Failed.Value(),
                    if row.image.name != "" then Some(ImageUrl(mediaUrl, row.image.name)) else None,
                    Some(row.originalFilename), None,
                    Some(FailurePrefix + StageMessage(stage, PathJoin(mediaRoot, row.image.name))))
  }

  /** The entries for a list of files, one per file. */
  function Entries(files: seq<UploadedFile>, outcomes: seq<FileOutcome>, mediaRoot: string, mediaUrl: string)
    : (entries: seq<ResultEntry>)
    requires |outcomes| == |files|
    ensures |entries| == |files|
    decreases |files|
  {
    if files == [] then []
    else
      var n := |files| - 1;
      Entries(files[..n], outcomes[..n], mediaRoot, mediaUrl) + [EntryFor(files[n], outcomes[n], mediaRoot, mediaUrl)]
  }

  /** The rows written for a list of files, grouped per file. */
  function AllWrites(files: seq<UploadedFile>, outcomes: seq<FileOutcome>, mediaRoot: string)
    : (writes: seq<seq<Row>>)
    requires |outcomes| == |files|
    ensures |writes| == |files|
    decreases |files|
  {
    if files == [] then []
    else
      var n := |files| - 1;
      AllWrites(files[..n], outcomes[..n], mediaRoot) + [Writes(files[n], outcomes[n], mediaRoot)]
  }

  /** What the view answers for a request whose file parts are `parts`. */
  function Respond(parts: seq<FilePart>, outcomes: seq<FileOutcome>, mediaRoot: string, mediaUrl: string)
    : (r: Response)
    requires |outcomes| == |GetList(parts, ImagesField)|
    ensures r.BadRequest? <==> parts == []
    ensures r.JsonResults? ==> |r.results| == |GetList(parts, ImagesField)|
  {
    if parts == [] then BadRequest(NoFilesMessage)
    else JsonResults(Entries(GetList(parts, ImagesField), outcomes, mediaRoot, mediaUrl))
  }

  /** `ProcessedImage.objects.create(image=file, original_filename=file.name, status=PENDING)`. */
  method CreateRecord(file: UploadedFile, pk: Pk, uuid: string, uploadedAt: int) returns (instance: ProcessedImage)
    ensures fresh(instance)
    ensures instance.Snapshot() == CreatedRow(file, pk, uuid, uploadedAt)
  {
    instance := new ProcessedImage(ImageFile(file.name, false), uploadedAt, file.name, Pending);
    instance.Save(pk, uuid);
  }

  /** Stores the pipeline's texts on a saved record, marks it COMPLETED at time `now`, and saves it. */
  method MarkCompleted(instance: ProcessedImage, tesseract: string, gemini: string, merged: string, now: int)
    requires instance.pk.Some? && instance.image.committed
    modifies instance
    ensures instance.Snapshot() ==
      old(instance.Snapshot()).(tesseractText := Some(tesseract), geminiText := Some(gemini),
                                finalText := Some(merged), status := Completed, processedAt := Some(now))
  {
    instance.tesseractText := Some(tesseract);
    instance.geminiText := Some(gemini);
    instance.finalText := Some(merged);
    instance.status := Completed;
    instance.processedAt := Some(now);
    instance.Save(instance.pk.value, "");
  }

  /** Marks a saved record FAILED at time `now`, keeping the error text in `final_text`, and saves it. */
  method MarkFailed(instance: ProcessedImage, errorMessage: string, now: int)
    requires instance.pk.Some? && instance.image.committed
    modifies instance
    ensures instance.Snapshot() ==
      old(instance.Snapshot()).(status := Failed, finalText := Some(errorMessage), processedAt := Some(now))
  {
    instance.status := Failed;
    instance.finalText := Some(errorMessage);
    instance.processedAt := Some(now);
    instance.Save(instance.pk.value, "");
  }

  /**
   * One turn of the view's loop: the `try` block for one uploaded file and,
   * if it raised, the `except` block. Returns the entry appended to
   * `results` and the rows saved.
   */
  method ProcessFile(file: UploadedFile, outcome: FileOutcome, mediaRoot: string, mediaUrl: string)
    returns (entry: ResultEntry, rows: seq<Row>)
    requires file.name != ""
    ensures entry == EntryFor(file, outcome, mediaRoot, mediaUrl)
    ensures rows == Writes(file, outcome, mediaRoot)
  {
    var instance: ProcessedImage? := null;
    var raised: Option<string> := None;  // the message of the exception raised, if any
    var clock := 0;                      // `timezone.now()` when processing ends
    rows := [];
    match outcome {
      case CreateFailed(message) =>
        raised := Some(message);
      case Created(pk, uuid, uploadedAt, processedAt, stage) =>
        clock := processedAt;
        instance := CreateRecord(file, pk, uuid, uploadedAt);
        rows := [instance.Snapshot()];
        var imagePath := PathJoin(mediaRoot, instance.image.name);
        match stage {
          case FileMissing =>
            raised := Some("Image file not found at " + imagePath);
          case PipelineFailed(message) =>
            raised := Some(message);
          case PipelineDone(tesseract, gemini, merged) =>
            MarkCompleted(instance, tesseract, gemini, merged, clock);
            rows := rows + [instance.Snapshot()];
        }
    }
    if raised.None? {
      entry := ResultEntry(instance.pk, instance.status.Value(), Some(ImageUrl(mediaUrl, instance.image.name)),
                           Some(instance.originalFilename), instance.finalText, None);
    } else {
      var errorMessage := FailurePrefix + raised.value;
      var status := Failed;
      if instance != null && instance.pk.Some? && instance.pk.value != 0 {  // `image_instance and image_instance.pk`
        MarkFailed(instance, errorMessage, clock);
        rows := rows + [instance.Snapshot()];
        entry := ResultEntry(instance.pk, status.Value(),
                             if instance.image.name != "" then Some(ImageUrl(mediaUrl, instance.image.name)) else None,
                             Some(instance.originalFilename), None, Some(errorMessage));
      } else {
        entry := ResultEntry(None, status.Value(), None, Some(file.name), None, Some(errorMessage));
      }
    }
  }

  /**
   * `ProcessImagesView.post`. Returns the response and, per uploaded image,
   * the rows its record was saved as, in order.
   */
  method Post(parts: seq<FilePart>, outcomes: seq<FileOutcome>, mediaRoot: string, mediaUrl: string)
    returns (response: Response, writes: seq<seq<Row>>)
    requires forall i :: 0 <= i < |parts| ==> parts[i].file.name != ""
    requires |outcomes| == |GetList(parts, ImagesField)|
    ensures response == Respond(parts, outcomes, mediaRoot, mediaUrl)
    ensures writes == AllWrites(GetList(parts, ImagesField), outcomes, mediaRoot)
  {
    var files := GetList(parts, ImagesField);
    if parts == [] {
      return BadRequest(NoFilesMessage), [];
    }
    GetListNamesNonEmpty(parts, ImagesField);
    var results: seq<ResultEntry> := [];
    writes := [];
    for i := 0 to |files|
      invariant results == Entries(files[..i], outcomes[..i], mediaRoot, mediaUrl)
      invariant writes == AllWrites(files[..i], outcomes[..i], mediaRoot)
    {
      var entry, rows := ProcessFile(files[i], outcomes[i], mediaRoot, mediaUrl);
      EntriesSnoc(files, outcomes, mediaRoot, mediaUrl, i);
      AllWritesSnoc(files, outcomes, mediaRoot, i);
      results := results + [entry];
      writes := writes + [rows];
    }
    assert files[..|files|] == files;
    assert outcomes[..|files|] == outcomes;
    response := JsonResults(results);
  }

  /** One more file adds its entry at the end. */
  lemma EntriesSnoc(files: seq<UploadedFile>, outcomes: seq<FileOutcome>, mediaRoot: string, mediaUrl: string, i: nat)
    requires |outcomes| == |files| && i < |files|
    ensures Entries(files[..i + 1], outcomes[..i + 1], mediaRoot, mediaUrl)
            == Entries(files[..i], outcomes[..i], mediaRoot, mediaUrl) + [EntryFor(files[i], outcomes[i], mediaRoot, mediaUrl)]
  {
    var f := files[..i + 1];
    var o := outcomes[..i + 1];
    assert f[..i] == files[..i] && o[..i] == outcomes[..i];
    assert f[i] == files[i] && o[i] == outcomes[i];
  }

  /** One more file adds its rows at the end. */
  lemma AllWritesSnoc(files: seq<UploadedFile>, outcomes: seq<FileOutcome>, mediaRoot: string, i: nat)
    requires |outcomes| == |files| && i < |files|
    ensures AllWrites(files[..i + 1], outcomes[..i + 1], mediaRoot)
            == AllWrites(files[..i], outcomes[..i], mediaRoot) + [Writes(files[i], outcomes[i], mediaRoot)]
  {
    var f := files[..i + 1];
    var o := outcomes[..i + 1];
    assert f[..i] == files[..i] && o[..i] == outcomes[..i];
    assert f[i] == files[i] && o[i] == outcomes[i];
  }

  /** `getlist` only returns files of the request. */
  lemma {:induction false} GetListNamesNonEmpty(parts: seq<FilePart>, field: string)
    requires forall i :: 0 <= i < |parts| ==> parts[i].file.name != ""
    ensures forall i :: 0 <= i < |GetList(parts, field)| ==> GetList(parts, field)[i].name != ""
    decreases |parts|
  {
    if parts != [] {
      GetListNamesNonEmpty(parts[1..], field);
    }
  }

  // ---------------------------------------------------------------------
  // What the view promises about its reply and the rows it writes.

  /** Entry `i` of the reply is the one for file `i`. */
  lemma {:induction false} EntriesAt(files: seq<UploadedFile>, outcomes: seq<FileOutcome>,
                                     mediaRoot: string, mediaUrl: string, i: nat)
    requires |outcomes| == |files| && i < |files|
    ensures Entries(files, outcomes, mediaRoot, mediaUrl)[i] == EntryFor(files[i], outcomes[i], mediaRoot, mediaUrl)
    decreases |files|
  {
    var n := |files| - 1;
    var init := Entries(files[..n], outcomes[..n], mediaRoot, mediaUrl);
    assert Entries(files, outcomes, mediaRoot, mediaUrl) == init + [EntryFor(files[n], outcomes[n], mediaRoot, mediaUrl)];
    if i < n {
      EntriesAt(files[..n], outcomes[..n], mediaRoot, mediaUrl, i);
      assert files[..n][i] == files[i] && outcomes[..n][i] == outcomes[i];
    }
  }

  /** Group `i` of the saved rows is the one for file `i`. */
  lemma {:induction false} AllWritesAt(files: seq<UploadedFile>, outcomes: seq<FileOutcome>, mediaRoot: string, i: nat)
    requires |outcomes| == |files| && i < |files|
    ensures AllWrites(files, outcomes, mediaRoot)[i] == Writes(files[i], outcomes[i], mediaRoot)
    decreases |files|
  {
    var n := |files| - 1;
    var init := AllWrites(files[..n], outcomes[..n], mediaRoot);
    assert AllWrites(files, outcomes, mediaRoot) == init + [Writes(files[n], outcomes[n], mediaRoot)];
    if i < n {
      AllWritesAt(files[..n], outcomes[..n], mediaRoot, i);
      assert files[..n][i] == files[i] && outcomes[..n][i] == outcomes[i];
    }
  }

  /** A file whose pipeline finished is reported COMPLETED with the merged text and no error. */
  lemma CompletedEntry(file: UploadedFile, pk: Pk, uuid: string, uploadedAt: int, processedAt: int,
                       tesseract: string, gemini: string, merged: string, mediaRoot: string, mediaUrl: string)
    requires file.name != ""
    ensures EntryFor(file, Created(pk, uuid, uploadedAt, processedAt, PipelineDone(tesseract, gemini, merged)), mediaRoot, mediaUrl)
         == ResultEntry(Some(pk), "COMPLETED", Some(ImageUrl(mediaUrl, UploadPath(uuid, file.name))),
                        Some(file.name), Some(merged), None)
  {
  }

  /**
   * A file whose record was created but whose processing raised is
   * reported FAILED, with no text and the error `Processing failed: <message>`.
   */
  lemma FailedEntry(file: UploadedFile, pk: Pk, uuid: string, uploadedAt: int, processedAt: int,
                    stage: Stage, mediaRoot: string, mediaUrl: string)
    requires file.name != "" && !stage.PipelineDone?
    ensures EntryFor(file, Created(pk, uuid, uploadedAt, processedAt, stage), mediaRoot, mediaUrl)
         == ResultEntry(Some(pk), "FAILED", Some(ImageUrl(mediaUrl, UploadPath(uuid, file.name))), Some(file.name),
                        None, Some(FailurePrefix + StageMessage(stage, PathJoin(mediaRoot, UploadPath(uuid, file.name)))))
  {
  }

  /** A file whose record could not be created is reported with no id, no image and its own name. */
  lemma UnrecordedEntry(file: UploadedFile, message: string, mediaRoot: string, mediaUrl: string)
    ensures EntryFor(file, CreateFailed(message), mediaRoot, mediaUrl)
         == ResultEntry(None, "FAILED", None, Some(file.name), None, Some(FailurePrefix + message))
  {
  }

  /**
   * Every entry is COMPLETED or FAILED; COMPLETED exactly when the pipeline
   * finished, with `finalText` set and `error` null; FAILED with `finalText`
   * null and an error that starts with `Processing failed: `.
   */
  lemma EntryStatusFixesFields(file: UploadedFile, outcome: FileOutcome, mediaRoot: string, mediaUrl: string)
    requires file.name != ""
    ensures var e := EntryFor(file, outcome, mediaRoot, mediaUrl);
            && (e.status == Completed.Value() || e.status == Failed.Value())
            && (e.status == Completed.Value() <==> outcome.Created? && outcome.stage.PipelineDone?)
            && (e.status == Completed.Value() <==> e.finalText.Some?)
            && (e.status == Completed.Value() <==> e.error.None?)
            && (e.error.Some? ==> Text.StartsWith(e.error.value, FailurePrefix))
            && (e.id.None? <==> outcome.CreateFailed?)
            && (e.id.Some? ==> e.id.value > 0)
            && e.filename == Some(file.name)
  {
    var e := EntryFor(file, outcome, mediaRoot, mediaUrl);
    match outcome {
      case CreateFailed(message) =>
        assert e.error == Some(FailurePrefix + message);
        assert (FailurePrefix + message)[..|FailurePrefix|] == FailurePrefix;
      case Created(pk, uuid, uploadedAt, processedAt, stage) =>
        if !stage.PipelineDone? {
          var m := StageMessage(stage, PathJoin(mediaRoot, UploadPath(uuid, file.name)));
          assert e.error == Some(FailurePrefix + m);
          assert (FailurePrefix + m)[..|FailurePrefix|] == FailurePrefix;
        }
    }
  }

  /**
   * A created record is saved twice: first PENDING without a processing
   * time, then COMPLETED or FAILED with `processed_at` set; on failure its
   * `final_text` holds the reported error, on success the reported text.
   */
  lemma RecordLifecycle(file: UploadedFile, outcome: FileOutcome, mediaRoot: string, mediaUrl: string)
    requires file.name != ""
    ensures var w := Writes(file, outcome, mediaRoot);
            var e := EntryFor(file, outcome, mediaRoot, mediaUrl);
            && (outcome.CreateFailed? <==> w == [])
            && (outcome.Created? ==>
                  && |w| == 2
                  && w[0].status == Pending && w[0].processedAt == None
                  && w[0].pk == w[1].pk == Some(outcome.pk) == e.id
                  && w[1].processedAt == Some(outcome.processedAt)
                  && w[1].originalFilename == w[0].originalFilename == file.name
                  && (w[1].status == Completed || w[1].status == Failed)
                  && (w[1].status == Completed <==> outcome.stage.PipelineDone?)
                  && w[1].finalText == (if w[1].status == Completed then e.finalText else e.error)
                  && w[1].status.Value() == e.status)
  {
  }

  /** The reply has one entry per file sent under `images`, in request order, each naming its file. */
  lemma OneEntryPerImage(parts: seq<FilePart>, outcomes: seq<FileOutcome>, mediaRoot: string, mediaUrl: string)
    requires parts != []
    requires forall i :: 0 <= i < |parts| ==> parts[i].file.name != ""
    requires |outcomes| == |GetList(parts, ImagesField)|
    ensures var r := Respond(parts, outcomes, mediaRoot, mediaUrl);
            var files := GetList(parts, ImagesField);
            && r.JsonResults? && |r.results| == |files|
            && forall i :: 0 <= i < |files| ==>
                 r.results[i] == EntryFor(files[i], outcomes[i], mediaRoot, mediaUrl)
                 && r.results[i].filename == Some(files[i].name)
  {
    var files := GetList(parts, ImagesField);
    GetListNamesNonEmpty(parts, ImagesField);
    forall i | 0 <= i < |files|
      ensures Entries(files, outcomes, mediaRoot, mediaUrl)[i] == EntryFor(files[i], outcomes[i], mediaRoot, mediaUrl)
      ensures EntryFor(files[i], outcomes[i], mediaRoot, mediaUrl).filename == Some(files[i].name)
    {
      EntriesAt(files, outcomes, mediaRoot, mediaUrl, i);
      EntryStatusFixesFields(files[i], outcomes[i], mediaRoot, mediaUrl);
    }
  }

  /** Files sent only under other field names give an empty result list, not a bad request. */
  lemma OtherFieldsGiveNoResults(parts: seq<FilePart>, mediaRoot: string, mediaUrl: string)
    requires parts != []
    requires forall i :: 0 <= i < |parts| ==> parts[i].field != ImagesField
    ensures |GetList(parts, ImagesField)| == 0
    ensures Respond(parts, [], mediaRoot, mediaUrl) == JsonResults([])
  {
    GetListNoneUnder(parts, ImagesField);
  }
}

=== FILE: wrappers.dfy ===
/** Optional values: a JSON field that may be null or absent, a Python `None`. */
module Wrappers {

  datatype Option<+T> = None | Some(value: T) {

    /** The held value, or `default` when there is none. */
    function GetOr(default: T): T {
      match this
      case Some(v) => v
      case None => default
    }
  }
}
